=== FILE: README.md ===
# GUtil value helpers in Dafny

A model of the pure value logic of gravit's `GUtil` singleton
(`src/infinity/core/util.js`). It covers the following helpers:

- **`equals`**: the recursive, type-dispatching equality. It covers falsy
  shortcuts, geometry classes, dates, arrays, numbers, strings, booleans and
  plain objects, by reference or by value.
- **`indexOfEquals`**: a linear search that uses `equals`.
- **`uSortSegment`**: sorts the numbers, then writes the distinct ones that lie
  in `[a, b]` into an output array.
- **`replaceAll`**: repeated first-occurrence replacement, built on
  `indexOf`/`replace`.
- **`escape`**: five global single-character replacements with HTML entities.
- **`flagDelta`**: compares one flag between two bit masks.

The modules follow util.js:

- `JsValues`: the JavaScript values `equals` sees. These are truthiness,
  `typeof`, `===`, object references as ids, and `Object.keys` as a key array.
- `Equality`: `equals` exactly as written (`Equals`) and its corrected reading
  (`EqualsIntended`). Both come from one dispatch, `Compare`, with a `Dialect`
  switch.
- `Search`: `indexOfEquals` over either reading.
- `Segment`: `uSortSegment`, with its loop as `PushDistinct`. The functional
  reference `Picked` is the list of distinct in-segment values, ascending.
- `Strings`: `indexOf`, `replace` with a string pattern, `replaceAll`, and
  `escape` with its single-pass reference `EscapeEach`.
- `Flags`: `flagDelta` over 32-bit masks, with the documented meaning
  `Documented`.

Some calls go to code that is not part of this model: `GRect.equals`,
`GPoint.equals`, `GTransform.equals`, `gMath.isEqualEps` and
`String.prototype.localeCompare`. They are parameters, gathered in
`Equality.Collaborators` as total predicates. Symmetry or reflexivity of these
predicates is assumed only where a lemma says so.

## Model

| member | source | states |
|---|---|---|
| JsValues.Truthy | src/infinity/core/util.js:47-49 | JavaScript truthiness, which the guards on lines 47 and 49 read: undefined, null, false, 0, NaN and the empty string are falsy. Its consequences are stated by the Equality lemmas below. |
| JsValues.StrictEq | src/infinity/core/util.js:47 | `===`: objects compare by reference and NaN is not identical to itself. `Equality.FalsyOperands` and `Equality.NaNEqualsNothing` state what line 47 makes of it. |
| JsValues.TypeOf | src/infinity/core/util.js:75-78 | `typeof`: null, arrays, dates, geometry instances and plain objects all report "object". `Equality.KindMismatch` states the effect of the test on line 78. |
| JsValues.Lookup | src/infinity/core/util.js:104 | The property read `left[leftKeys[i]]`: the value under the first matching own key, or undefined. `Equality.PropsCompareAll` and `Equality.IntendedObjectsByValue` state the comparison built on it. |
| JsValues.KeyArray | src/infinity/core/util.js:96-97 | `Object.keys`: a fresh array of the key strings in enumeration order. `Equality.PlainObjectsByValue` and `Equality.IntendedObjectsByValue` state how the comparison at line 99 uses it. |
| Equality.Compare | src/infinity/core/util.js:46-118 | The dispatch of `equals` in source order, shared by both readings through a `Dialect` switch. Its properties are the lemmas listed below it. |
| Equality.Equals | src/infinity/core/util.js:46-118 | `equals` exactly as written. Its properties are the as-written lemmas below, from `Equality.FalsyOperands` to `Equality.EqualsSymmetric`. |
| Equality.EqualsIntended | src/infinity/core/util.js:46-118 | `equals` with the two findings corrected. Its properties are the lemmas from `Equality.IntendedNaN` to `Equality.IntendedAgreesByReference`. |
| Equality.FalsyOperands | src/infinity/core/util.js:47-49 | A falsy left operand equals exactly what it is `===` to. A truthy left operand never equals a falsy right one. |
| Equality.NaNEqualsNothing | src/infinity/core/util.js:47-49 | As written, NaN equals nothing, itself included, in either operand position. It is falsy and not `===` to itself. |
| Equality.KindMismatch | src/infinity/core/util.js:50-79 | Values of different runtime kinds are never equal. This covers a geometry instance, date or array against anything else, and operands whose `typeof` differs. |
| Equality.SpecialClassesDelegate | src/infinity/core/util.js:50-57 | Two rects, points or transforms are equal iff their class's `equals` says so. Two dates are equal iff their time values are equal. |
| Equality.PrimitivesDelegate | src/infinity/core/util.js:82-91 | Two truthy numbers are equal iff `isEqualEps` holds for them. Two non-empty strings are equal iff `localeCompare` returns 0. `true` equals `true`. |
| Equality.ZeroIgnoresEpsilon | src/infinity/core/util.js:47-49 | Zero is falsy, so under either reading it never equals a non-zero number in either position, however close that number is. The epsilon test of line 86 is not reached. |
| Equality.FunctionsNeverEqual | src/infinity/core/util.js:111-113 | A function equals nothing, itself included, on either side. |
| Equality.ElemsCompare | src/infinity/core/util.js:64-68 | The element loop, from the first position onward. `Equality.ElemsCompareAll` states what it computes. |
| Equality.ElemsCompareAll | src/infinity/core/util.js:64-68 | The element loop succeeds iff every position compares equal. |
| Equality.ArraysEqualIff | src/infinity/core/util.js:58-73 | Two arrays are equal iff they have the same length and are equal position by position, with the same flag. |
| Equality.PlainObjectsByReference | src/infinity/core/util.js:93-94 | Without `objectByValue`, two plain objects are equal iff they are the same object. |
| Equality.PlainObjectsByValue | src/infinity/core/util.js:95-110 | With `objectByValue`, two plain objects are equal iff neither has an own key. This is the as-written effect of the comma expression. |
| Equality.ObjectByValueNotReflexive | src/infinity/core/util.js:103-107 | As written, `{a: 1}` is not equal by value to itself. |
| Equality.EqualsSymmetric | src/infinity/core/util.js:46-118 | `equals(l, r)` and `equals(r, l)` agree whenever the collaborators are symmetric. This is proved for the as-written reading only. The corrected reading is not symmetric when `localeCompare` equates two distinct keys, because a property missing on the right reads as undefined. |
| Equality.IntendedNaN | src/infinity/core/util.js:82-84 | Under the corrected reading, NaN equals NaN, as lines 83-84 intend. |
| Equality.PropsCompare | src/infinity/core/util.js:103-107 | The corrected key loop over the left object's keys, from position `i` onward. `Equality.PropsCompareAll` states what it computes. |
| Equality.PropsCompareAll | src/infinity/core/util.js:103-107 | The corrected key loop succeeds iff every key of the left object maps to equal values in both objects. |
| Equality.IntendedObjectsByValue | src/infinity/core/util.js:96-109 | Corrected by-value comparison: two plain objects are equal iff their key arrays are equal and every left key maps to equal values. |
| Equality.IntendedReflexive | src/infinity/core/util.js:46-118 | Under the corrected reading, every value without functions equals itself with either flag, given reflexive collaborators. |
| Equality.IntendedAgreesByReference | src/infinity/core/util.js:46-118 | Without `objectByValue`, the corrected reading agrees with the code when the left operand holds no NaN. |
| Search.IndexOfEquals | src/infinity/core/util.js:22-29 | Returns the lowest index whose element equals the sought one, or -1 iff no element does. |
| Search.FindNaN | src/infinity/core/util.js:22-29 | Under the corrected reading, searching for NaN finds any NaN that the array holds. |
| Segment.Sort | src/infinity/core/util.js:191-193 | The numeric sort yields an ascending permutation of its input. |
| Segment.SetFirst | src/infinity/core/util.js:196 | `newnums[0] = x` overwrites the first element, or creates it in an empty array, and keeps the rest. |
| Segment.PushDistinct | src/infinity/core/util.js:204-209 | The loop only appends. On a sorted array the appended numbers strictly ascend and are exactly the values of the segment in positions 1 onward that differ from the smallest number. The count equals the number appended. |
| Segment.PushedSpec | src/infinity/core/util.js:204-209 | On a sorted array the pushes are strictly ascending and are exactly the in-segment values, other than the smallest number, found after position 0. |
| Segment.EmittedSound | src/infinity/core/util.js:195-209 | Only numbers of the scanned prefix that lie in `[a, b]` are written. |
| Segment.EmittedComplete | src/infinity/core/util.js:195-209 | Every number of the scanned prefix that lies in `[a, b]` is written, including one skipped as equal to its predecessor. |
| Segment.EmittedAscending | src/infinity/core/util.js:195-209 | On the sorted array, the written numbers strictly ascend, so there are no duplicates. |
| Segment.PickedSpec | src/infinity/core/util.js:187-188 | The distinct in-segment values are strictly ascending. They are exactly the numbers of `nums` in `[a, b]`, and they start with the smallest number when that number lies in the segment. |
| Segment.StrictlyAscendingUnique | src/infinity/core/util.js:187-188 | Two strictly ascending sequences with the same members are equal, so the promised output is unique. |
| Segment.USortSegment | src/infinity/core/util.js:189-212 | `nums` ends sorted, as a permutation. The count is the number of distinct values in `[a, b]`. `newnums` receives them in ascending order: the first over `newnums[0]` when the smallest number is in range, the rest pushed. |
| Strings.IndexOf | src/infinity/core/util.js:181 | `indexOf` with a string pattern. It returns -1 or a position where the pattern fits. `Strings.IndexOfSpec` states the rest. |
| Strings.IndexOfSpec | src/infinity/core/util.js:181 | `indexOf` returns the first occurrence, and returns -1 iff there is none. |
| Strings.ReplaceFirst | src/infinity/core/util.js:182 | `replace` with a string pattern. `Strings.ReplaceFirstSpec` states its properties. |
| Strings.ReplaceFirstSpec | src/infinity/core/util.js:182 | `replace` puts the replacement where the first occurrence stood and keeps the text around it. Without an occurrence the string is unchanged. |
| Strings.ReplaceAll | src/infinity/core/util.js:179-185 | The `replaceAll` loop, run for at most `fuel` rounds. Its properties are the `Strings.ReplaceAll…` lemmas below. |
| Strings.ReplaceAllLeavesNone | src/infinity/core/util.js:179-185 | When `replaceAll` returns, the pattern occurs nowhere in its result. |
| Strings.ReplaceAllAbsent | src/infinity/core/util.js:179-185 | Without an occurrence, `replaceAll` returns its input unchanged. |
| Strings.ReplaceAllEmptyPattern | src/infinity/core/util.js:181-183 | With the empty pattern the loop never ends. |
| Strings.ReplaceAllSelfFeeding | src/infinity/core/util.js:181-183 | If the replacement contains the pattern and the input does too, the loop never ends. |
| Strings.ReplaceAllShrinking | src/infinity/core/util.js:181-183 | A replacement shorter than the pattern ends the loop within as many rounds as the input has characters. |
| Strings.ReplaceAllFuel | src/infinity/core/util.js:179-185 | Once `replaceAll` returns, more rounds give the same answer. |
| Strings.ReplaceChar | src/infinity/core/util.js:220 | `replace(/c/g, rep)`: every occurrence of one character is replaced. `Strings.ReplaceCharRemoves` states its property. |
| Strings.ReplaceCharRemoves | src/infinity/core/util.js:220 | A global replacement leaves no occurrence of the replaced character, unless the replacement text contains it. |
| Strings.Escape | src/infinity/core/util.js:219-221 | The five replacements in source order. Its properties are the `Strings.Escape…` lemmas below. |
| Strings.EscapeRemovesMarkup | src/infinity/core/util.js:219-221 | Escaped text contains no `<`, `>`, `"` or `'`. |
| Strings.EscapeOneChar | src/infinity/core/util.js:220 | On one character, the five replacements produce exactly that character's entity. |
| Strings.EscapeIsSinglePass | src/infinity/core/util.js:219-221 | The five sequential replacements equal escaping each character independently. |
| Strings.EscapePlainText | src/infinity/core/util.js:219-221 | Text without the five special characters is unchanged. |
| Flags.FlagDelta | src/infinity/core/util.js:145-153 | The result is -1, 0 or 1. It is 0 iff the masks agree on the flag's bits; -1 only when the left mask has some of them; +1 only when the right mask has some and the left has none. |
| Flags.FlagDeltaSingleBit | src/infinity/core/util.js:141-153 | For a one-bit flag, the result is what the documentation promises: 0 when the bit is in both masks or in neither, -1 when only the left has it, +1 when only the right has it. |
| Flags.FlagDeltaAntisymmetric | src/infinity/core/util.js:145-153 | For a one-bit flag, swapping the masks negates the result. |
| Flags.FlagDeltaOnlyFlagBits | src/infinity/core/util.js:145-153 | Mask bits outside the flag never affect the result. |
| Flags.FlagDeltaChain | src/infinity/core/util.js:141-153 | For a one-bit flag, the deltas add up along a chain of masks: the delta from left to right is the delta from left to a middle mask plus the delta from the middle mask to right. |
| Flags.MultiBitFlagAmbiguous | src/infinity/core/util.js:141-153 | For a flag of several bits, the documentation's reading of "set" fails. Masks 1 and 2 with flag 3 give -1 in both orders. |

## Left out

- `uuid`: draws on `Math.random`, so it has no deterministic behaviour to state.
- `_memcpy` and `memcpy`: they copy typed-array buffers through `subarray`, `slice` and `set`, which are host-object behaviour.
- `containsObjectKey`: it enumerates keys with `for … in`, including inherited ones, and the prototype chain is not modelled.
- `unescape`: it is not modelled, and neither is an escape/unescape round trip.
- The `GUtil` constructor and the `_.gUtil` singleton hold no state.
- Numbers are NaN or finite reals. Infinities, signed zero and rounding are not modelled. Equality of two truthy numbers is whatever `isEqualEps` says. 0 and NaN are falsy, so the guard at lines 47-49 decides them first.
- `localeCompare` and the three geometry `equals` are parameters. Their definitions are not part of this model.
- `instanceof` follows the value's constructor. Subclasses, cross-realm objects and objects whose prototype was changed are not modelled. A date's time is an integer, and invalid dates (NaN time) are not modelled.
- Values are finite and acyclic, because `Value` is an inductive datatype. The source has no cycle detection. It overflows the stack on a cyclic array such as `a = [1]; a.push(a)` compared with itself, through the element loop at line 65. With a plain object compared by value, the as-written code overflows only when the value under the first key reaches a cycle through arrays alone, as in `a = [a]; equals({k: a}, {k: a}, true)`. The discarded call at line 104 passes no flag, so nested plain objects compare by reference at line 94, and line 105 returns after the first key. For example, `o = {}; o.self = o; equals({k: o}, {k: o}, true)` returns false. Under the corrected reading, any cycle under a compared property recurses without end. The model answers for every value it can represent, so it says nothing about these inputs.
- Plain objects carry only their own enumerable keys, in enumeration order. Getters, symbols and the prototype chain are not modelled. `Object.keys` yields a fresh array whose identity is never consulted.
- Strings are sequences of Dafny characters. UTF-16 code units and surrogate pairs are not modelled.
- `Strings.ReplaceFirst`: `$` patterns in the replacement string (`$&`, `$$`, …) are not interpreted. The replacement is inserted literally.
- `Strings.ReplaceAll`: the source loop need not terminate. The model runs at most `fuel` rounds and answers `None` when they do not suffice. Divergence is stated as `None` for every fuel.
- `Flags.FlagDelta`: masks are taken after JavaScript's conversion to 32-bit integers. That conversion of arbitrary numbers (ToInt32) is not modelled.
- `Segment.USortSegment`: numbers are integers. The comparator `s - k` is exact on them. Fractional numbers, NaN entries and `undefined` holes are not modelled. The in-place mutation of `nums` and `newnums` is returned as new sequences.
- Segment.USortSegment: `nums` and `newnums` are taken to be distinct arrays. When the source is given the same array twice, each push lengthens the array its loop scans. For example, `[1, 2]` becomes `[1, 2, 2]`, and `[1, 2, 3]` never stops growing.
- `Search.IndexOfEquals`: `objectByValue` is read only for its truthiness, so it is a boolean here.

The documentation comment of `equals` (util.js lines 31-45) promises that
objects are compared by their values when `objectByValue` is set. The number
branch (lines 83-84) treats two NaNs as equal. The code as written does neither,
and `Equals` follows the code (see Findings). `EqualsIntended` models the
documented reading.

The same comment (lines 38-39) promises that numbers very close to each other
are equal. The falsy guard comes first, so zero is compared by `===` alone and
never equals a non-zero number, however small (`Equality.ZeroIgnoresEpsilon`).
Both readings keep this behaviour. It is recorded here rather than as a
finding, because whether the epsilon promise was meant to cover zero cannot
be told from the source.

## Findings

| source | as written | input that shows it | evidently intended | confidence | as-written member | corrected member |
|---|---|---|---|---|---|---|
| src/infinity/core/util.js:104 | `if (!this.equals(a, b), objectByValue)` is a comma expression. The comparison is discarded and the condition is `objectByValue`, which is true in that branch, so the first key returns false. | `equals({a: 1}, {a: 1}, true)` is false | `if (!this.equals(a, b, objectByValue))`: compare the property values. Lines 36-37 speak of "an unnested deepness", which also allows dropping `, objectByValue` so that nested objects compare by reference. This reading was chosen because it moves a single parenthesis, and because it passes the flag on as the recursive calls at lines 65 and 99 do. | high (not executed) | Equality.ObjectByValueNotReflexive | Equality.IntendedObjectsByValue |
| src/infinity/core/util.js:47 | NaN is falsy and `NaN !== NaN`. The first test fails, and the second test fails because NaN is not truthy, so the result is false. Lines 83-84, which compare NaNs, cannot be reached. | `equals(NaN, NaN)` is false | NaN equals NaN, as lines 83-84 say | high (not executed) | Equality.NaNEqualsNothing | Equality.IntendedNaN |

=== FILE: equality.dfy ===
/** `GUtil.equals`: the recursive, type-dispatching equality of util.js.

    `Equals` is the comparison exactly as the source writes it. `EqualsIntended`
    is the same dispatch with the two corrections the source evidently meant
    (see the findings in README.md): a NaN equals a NaN, and plain objects
    compared by value compare their property values.
 */
module Equality {
  import opened JsValues

  /** The predicates `equals` delegates to and whose definitions are not part of
      this model: `GRect.equals`, `GPoint.equals`, `GTransform.equals`,
      `gMath.isEqualEps` and `left.localeCompare(right) === 0`. */
  datatype Collaborators = Collaborators(
    rectEquals: (seq<real>, seq<real>) -> bool,
    pointEquals: (seq<real>, seq<real>) -> bool,
    transformEquals: (seq<real>, seq<real>) -> bool,
    isEqualEps: (real, real) -> bool,
    localeEquals: (string, string) -> bool)

  ghost predicate SymmetricCollaborators(env: Collaborators) {
    && (forall a, b :: env.rectEquals(a, b) == env.rectEquals(b, a))
    && (forall a, b :: env.pointEquals(a, b) == env.pointEquals(b, a))
    && (forall a, b :: env.transformEquals(a, b) == env.transformEquals(b, a))
    && (forall x, y :: env.isEqualEps(x, y) == env.isEqualEps(y, x))
    && (forall s, t :: env.localeEquals(s, t) == env.localeEquals(t, s))
  }

  ghost predicate ReflexiveCollaborators(env: Collaborators) {
    && (forall a :: env.rectEquals(a, a))
    && (forall a :: env.pointEquals(a, a))
    && (forall a :: env.transformEquals(a, a))
    && (forall x :: env.isEqualEps(x, x))
    && (forall s :: env.localeEquals(s, s))
  }

  /** Which reading of the comparison to follow: the code as written, or the
      code with the two corrections applied. */
  datatype Dialect = AsWritten | Intended

  /** `equals(left, right, objectByValue)` as util.js writes it. */
  function Equals(env: Collaborators, left: Value, right: Value, byValue: bool): bool {
    Compare(env, AsWritten, left, right, byValue)
  }

  /** `equals` with NaN equal to NaN and by-value objects compared property by property. */
  function EqualsIntended(env: Collaborators, left: Value, right: Value, byValue: bool): bool {
    Compare(env, Intended, left, right, byValue)
  }

  /** The dispatch of `equals`, in source order. `byValue` is the truthiness of
      `objectByValue`; it is passed unchanged to every recursive call. */
  function Compare(env: Collaborators, dialect: Dialect, left: Value, right: Value, byValue: bool): bool
    decreases Size(left), 2, 0
  {
    if (!Truthy(left) && StrictEq(left, right))
       || (dialect == Intended && IsNaN(left) && IsNaN(right)) then
      true
    else if Truthy(left) && Truthy(right) then
      if left.Rect? || right.Rect? then
        left.Rect? && right.Rect? && env.rectEquals(left.coords, right.coords)
      else if left.Point? || right.Point? then
        left.Point? && right.Point? && env.pointEquals(left.coords, right.coords)
      else if left.Transform? || right.Transform? then
        left.Transform? && right.Transform? && env.transformEquals(left.coords, right.coords)
      else if left.Date? || right.Date? then
        left.Date? && right.Date? && left.time == right.time
      else if left.Arr? || right.Arr? then
        left.Arr? && right.Arr? && |left.elems| == |right.elems|
        && ElemsCompare(env, dialect, left.elems, right.elems, byValue)
      else if TypeOf(left) != TypeOf(right) then
        false
      else
        match TypeOf(left)
        case TNumber =>
          if IsNaN(left) || IsNaN(right) then IsNaN(left) && IsNaN(right)
          else env.isEqualEps(left.n.r, right.n.r)
        case TString => env.localeEquals(left.s, right.s)
        case TBoolean => left.b == right.b
        case TObject =>
          if !byValue then
            StrictEq(left, right)
          else
            KeyArraySmaller(left);
            if !Compare(env, dialect, KeyArray(left.keys), KeyArray(right.keys), byValue) then
              false
            else if dialect == AsWritten then
              // The loop condition `(!equals(..), objectByValue)` is a comma
              // expression: the comparison is discarded and the condition is
              // `objectByValue` itself, so the first iteration returns false.
              !(|left.keys| > 0 && byValue)
            else
              PropsCompare(env, dialect, left, right, 0, byValue)
        case _ => false
    else
      false
  }

  /** The loop over array positions: every index must compare equal. */
  function ElemsCompare(env: Collaborators, dialect: Dialect, ls: seq<Value>, rs: seq<Value>, byValue: bool): bool
    requires |ls| == |rs|
    decreases SizeSeq(ls), 2, 0
  {
    |ls| == 0
    || (Compare(env, dialect, ls[0], rs[0], byValue) && ElemsCompare(env, dialect, ls[1..], rs[1..], byValue))
  }

  /** The loop over the left object's keys from position `i` on, comparing
      `left[key]` with `right[key]`. */
  function PropsCompare(env: Collaborators, dialect: Dialect, left: Value, right: Value, i: nat, byValue: bool): bool
    requires left.Obj? && right.Obj? && i <= |left.keys|
    decreases Size(left), 1, |left.keys| - i
  {
    if i == |left.keys| then
      true
    else
      var key := left.keys[i];
      LookupSmaller(left, key);
      Compare(env, dialect, Lookup(left.keys, left.vals, key), Lookup(right.keys, right.vals, key), byValue)
      && PropsCompare(env, dialect, left, right, i + 1, byValue)
  }

  // ---------------------------------------------------------------------------
  // Properties of the comparison as written

  /** A falsy left operand equals only what it is identical to; a truthy one
      never equals a falsy one. */
  lemma FalsyOperands(env: Collaborators, left: Value, right: Value, byValue: bool)
    ensures !Truthy(left) ==> (Equals(env, left, right, byValue) <==> StrictEq(left, right))
    ensures Truthy(left) && !Truthy(right) ==> !Equals(env, left, right, byValue)
  {
  }

  /** A primitive NaN is falsy and not identical to itself: it equals nothing,
      not even another NaN. */
  lemma NaNEqualsNothing(env: Collaborators, v: Value, byValue: bool)
    ensures !Equals(env, Number(NaN), v, byValue)
    ensures !Equals(env, v, Number(NaN), byValue)
  {
  }

  /** Values of different kinds are never equal: a geometry instance, date or
      array against anything else, or operands whose `typeof` differs. */
  lemma KindMismatch(env: Collaborators, left: Value, right: Value, byValue: bool)
    requires KindOf(left) != KindOf(right)
    ensures !Equals(env, left, right, byValue)
  {
  }

  /** Functions are never equal to anything, themselves included. */
  lemma FunctionsNeverEqual(env: Collaborators, f: Value, v: Value, byValue: bool)
    requires f.Func?
    ensures !Equals(env, f, v, byValue)
    ensures !Equals(env, v, f, byValue)
  {
  }

  /** Geometry instances and dates delegate to their own notion of equality. */
  lemma SpecialClassesDelegate(env: Collaborators, left: Value, right: Value, byValue: bool)
    ensures left.Rect? && right.Rect? ==>
              (Equals(env, left, right, byValue) <==> env.rectEquals(left.coords, right.coords))
    ensures left.Point? && right.Point? ==>
              (Equals(env, left, right, byValue) <==> env.pointEquals(left.coords, right.coords))
    ensures left.Transform? && right.Transform? ==>
              (Equals(env, left, right, byValue) <==> env.transformEquals(left.coords, right.coords))
    ensures left.Date? && right.Date? ==>
              (Equals(env, left, right, byValue) <==> left.time == right.time)
  {
  }

  /** Two truthy primitives of the same type: numbers compare with the epsilon
      test, strings with `localeCompare`, and `true` equals `true`. */
  lemma PrimitivesDelegate(env: Collaborators, left: Value, right: Value, byValue: bool)
    requires Truthy(left) && Truthy(right)
    ensures left.Number? && right.Number? ==>
              (Equals(env, left, right, byValue) <==> env.isEqualEps(left.n.r, right.n.r))
    ensures left.Str? && right.Str? ==>
              (Equals(env, left, right, byValue) <==> env.localeEquals(left.s, right.s))
    ensures left.Bool? && right.Bool? ==> Equals(env, left, right, byValue)
  {
  }

  /** Zero is falsy, so it equals only another zero under either reading: the
      epsilon test is never consulted, however close the other number is. */
  lemma ZeroIgnoresEpsilon(env: Collaborators, r: real, byValue: bool)
    requires r != 0.0
    ensures !Equals(env, Number(Fin(0.0)), Number(Fin(r)), byValue)
    ensures !Equals(env, Number(Fin(r)), Number(Fin(0.0)), byValue)
    ensures !EqualsIntended(env, Number(Fin(0.0)), Number(Fin(r)), byValue)
    ensures !EqualsIntended(env, Number(Fin(r)), Number(Fin(0.0)), byValue)
  {
  }

  lemma {:induction false} ElemsCompareAll(env: Collaborators, dialect: Dialect, ls: seq<Value>, rs: seq<Value>, byValue: bool)
    requires |ls| == |rs|
    ensures ElemsCompare(env, dialect, ls, rs, byValue)
            <==> forall i :: 0 <= i < |ls| ==> Compare(env, dialect, ls[i], rs[i], byValue)
    decreases |ls|
  {
    if |ls| > 0 {
      ElemsCompareAll(env, dialect, ls[1..], rs[1..], byValue);
      assert forall i :: 1 <= i < |ls| ==> ls[1..][i - 1] == ls[i] && rs[1..][i - 1] == rs[i];
    }
  }

  /** Two arrays are equal exactly when they have the same length and are equal
      position by position, with the same flag. */
  lemma ArraysEqualIff(env: Collaborators, left: Value, right: Value, byValue: bool)
    requires left.Arr? && right.Arr?
    ensures Equals(env, left, right, byValue)
            <==> |left.elems| == |right.elems|
                 && forall i :: 0 <= i < |left.elems| ==> Equals(env, left.elems[i], right.elems[i], byValue)
  {
    if |left.elems| == |right.elems| {
      ElemsCompareAll(env, AsWritten, left.elems, right.elems, byValue);
    }
  }

  /** Without `objectByValue`, plain objects are equal only when identical. */
  lemma PlainObjectsByReference(env: Collaborators, left: Value, right: Value)
    requires left.Obj? && right.Obj?
    ensures Equals(env, left, right, false) <==> left.id == right.id
  {
  }

  /** With `objectByValue`, the comma expression on the key loop means that only
      two objects without own keys are equal. */
  lemma PlainObjectsByValue(env: Collaborators, left: Value, right: Value)
    requires left.Obj? && right.Obj?
    ensures Equals(env, left, right, true) <==> |left.keys| == 0 && |right.keys| == 0
  {
    var lk, rk := KeyArray(left.keys), KeyArray(right.keys);
    if |left.keys| == 0 && |right.keys| == 0 {
      assert lk.elems == [] && rk.elems == [];
      assert Equals(env, lk, rk, true);
    } else if |left.keys| == 0 {
      assert |lk.elems| != |rk.elems|;
      assert !Equals(env, lk, rk, true);
    }
  }

  /** An object with a key is not equal by value to itself. */
  lemma ObjectByValueNotReflexive(env: Collaborators)
    ensures !Equals(env, Obj(1, ["a"], [Number(Fin(1.0))]), Obj(1, ["a"], [Number(Fin(1.0))]), true)
  {
    PlainObjectsByValue(env, Obj(1, ["a"], [Number(Fin(1.0))]), Obj(1, ["a"], [Number(Fin(1.0))]));
  }

  /** The comparison is symmetric whenever its collaborators are. */
  lemma {:induction false} EqualsSymmetric(env: Collaborators, left: Value, right: Value, byValue: bool)
    requires SymmetricCollaborators(env)
    ensures Equals(env, left, right, byValue) == Equals(env, right, left, byValue)
    decreases Size(left) + Size(right), 1
  {
    if Truthy(left) && Truthy(right) {
      if left.Arr? && right.Arr? && |left.elems| == |right.elems| {
        ElemsSymmetric(env, left.elems, right.elems, byValue);
      } else if left.Obj? && right.Obj? && byValue {
        PlainObjectsByValue(env, left, right);
        PlainObjectsByValue(env, right, left);
      }
    }
  }

  lemma {:induction false} ElemsSymmetric(env: Collaborators, ls: seq<Value>, rs: seq<Value>, byValue: bool)
    requires SymmetricCollaborators(env)
    requires |ls| == |rs|
    ensures ElemsCompare(env, AsWritten, ls, rs, byValue) == ElemsCompare(env, AsWritten, rs, ls, byValue)
    decreases SizeSeq(ls) + SizeSeq(rs), 0
  {
    if |ls| > 0 {
      EqualsSymmetric(env, ls[0], rs[0], byValue);
      ElemsSymmetric(env, ls[1..], rs[1..], byValue);
    }
  }

  // ---------------------------------------------------------------------------
  // Properties of the corrected comparison

  /** Values without NaN anywhere inside. */
  predicate NoNaN(v: Value) {
    match v
    case Number(n) => n.Fin?
    case Arr(_, elems) => forall e | e in elems :: NoNaN(e)
    case Obj(_, _, vals) => forall e | e in vals :: NoNaN(e)
    case _ => true
  }

  /** Values without a function anywhere inside. */
  predicate NoFunctions(v: Value) {
    match v
    case Func(_) => false
    case Arr(_, elems) => forall e | e in elems :: NoFunctions(e)
    case Obj(_, _, vals) => forall e | e in vals :: NoFunctions(e)
    case _ => true
  }

  lemma IntendedNaN(env: Collaborators, byValue: bool)
    ensures EqualsIntended(env, Number(NaN), Number(NaN), byValue)
  {
  }

  lemma {:induction false} PropsCompareAll(env: Collaborators, dialect: Dialect, left: Value, right: Value, i: nat, byValue: bool)
    requires left.Obj? && right.Obj? && i <= |left.keys|
    ensures PropsCompare(env, dialect, left, right, i, byValue)
            <==> forall j :: i <= j < |left.keys| ==>
                   Compare(env, dialect, Lookup(left.keys, left.vals, left.keys[j]),
                           Lookup(right.keys, right.vals, left.keys[j]), byValue)
    decreases |left.keys| - i
  {
    if i < |left.keys| {
      PropsCompareAll(env, dialect, left, right, i + 1, byValue);
    }
  }

  /** With `objectByValue`, the corrected comparison equates two plain objects
      exactly when their key arrays are equal and every property of the left
      object equals the right object's property under the same key. */
  lemma IntendedObjectsByValue(env: Collaborators, left: Value, right: Value)
    requires left.Obj? && right.Obj?
    ensures EqualsIntended(env, left, right, true)
            <==> EqualsIntended(env, KeyArray(left.keys), KeyArray(right.keys), true)
                 && forall k :: k in left.keys ==>
                      EqualsIntended(env, Lookup(left.keys, left.vals, k), Lookup(right.keys, right.vals, k), true)
  {
    PropsCompareAll(env, Intended, left, right, 0, true);
    forall k | k in left.keys
      ensures exists j :: 0 <= j < |left.keys| && left.keys[j] == k
    {
      var j :| 0 <= j < |left.keys| && left.keys[j] == k;
    }
  }

  /** Every value without functions equals itself under the corrected
      comparison, given reflexive collaborators. */
  lemma {:induction false} IntendedReflexive(env: Collaborators, v: Value, byValue: bool)
    requires ReflexiveCollaborators(env)
    requires NoFunctions(v)
    ensures EqualsIntended(env, v, v, byValue)
    decreases Size(v), 1
  {
    if Truthy(v) {
      match v
      case Arr(_, elems) =>
        ElemsReflexive(env, elems, byValue);
      case Obj(_, keys, vals) =>
        if byValue {
          KeyArraySmaller(v);
          IntendedReflexive(env, KeyArray(keys), byValue);
          PropsReflexive(env, v, 0, byValue);
        }
      case _ =>
    }
  }

  lemma {:induction false} ElemsReflexive(env: Collaborators, vs: seq<Value>, byValue: bool)
    requires ReflexiveCollaborators(env)
    requires forall e | e in vs :: NoFunctions(e)
    ensures ElemsCompare(env, Intended, vs, vs, byValue)
    decreases SizeSeq(vs), 0
  {
    if |vs| > 0 {
      IntendedReflexive(env, vs[0], byValue);
      ElemsReflexive(env, vs[1..], byValue);
    }
  }

  lemma {:induction false} LookupNoFunctions(keys: seq<string>, vals: seq<Value>, key: string)
    requires forall e | e in vals :: NoFunctions(e)
    ensures NoFunctions(Lookup(keys, vals, key))
  {
    if |keys| > 0 && |vals| > 0 && keys[0] != key {
      LookupNoFunctions(keys[1..], vals[1..], key);
    }
  }

  lemma {:induction false} PropsReflexive(env: Collaborators, o: Value, i: nat, byValue: bool)
    requires ReflexiveCollaborators(env)
    requires o.Obj? && NoFunctions(o) && i <= |o.keys|
    ensures PropsCompare(env, Intended, o, o, i, byValue)
    decreases Size(o), 0, |o.keys| - i
  {
    if i < |o.keys| {
      var key := o.keys[i];
      LookupSmaller(o, key);
      LookupNoFunctions(o.keys, o.vals, key);
      IntendedReflexive(env, Lookup(o.keys, o.vals, key), byValue);
      PropsReflexive(env, o, i + 1, byValue);
    }
  }

  /** The corrections change nothing for objects compared by reference when the
      left operand holds no NaN. */
  lemma {:induction false} IntendedAgreesByReference(env: Collaborators, left: Value, right: Value)
    requires NoNaN(left)
    ensures EqualsIntended(env, left, right, false) == Equals(env, left, right, false)
    decreases Size(left), 1
  {
    if Truthy(left) && Truthy(right) && left.Arr? && right.Arr? && |left.elems| == |right.elems| {
      ElemsAgree(env, left.elems, right.elems);
    }
  }

  lemma {:induction false} ElemsAgree(env: Collaborators, ls: seq<Value>, rs: seq<Value>)
    requires |ls| == |rs|
    requires forall e | e in ls :: NoNaN(e)
    ensures ElemsCompare(env, Intended, ls, rs, false) == ElemsCompare(env, AsWritten, ls, rs, false)
    decreases SizeSeq(ls), 0
  {
    if |ls| > 0 {
      IntendedAgreesByReference(env, ls[0], rs[0]);
      ElemsAgree(env, ls[1..], rs[1..]);
    }
  }
}

=== FILE: flags.dfy ===
/** `GUtil.flagDelta`: how one flag differs between two bit masks. JavaScript's
    `&` converts both operands to 32-bit integers, so masks and flags are
    32-bit vectors here. */
module Flags {

  /** Some bit of `flag` is set in `mask`. */
  predicate IsSet(mask: bv32, flag: bv32) {
    mask & flag != 0
  }

  /** A flag made of exactly one bit. */
  predicate SingleBit(flag: bv32) {
    flag != 0 && flag & (flag - 1) == 0
  }

  /** `flagDelta(leftMask, rightMask, flag)`: 0 when both masks agree on the
      bits of `flag`, -1 when they differ and the left mask has some of them,
      +1 otherwise. */
  function FlagDelta(left: bv32, right: bv32, flag: bv32): (d: int)
    ensures d == -1 || d == 0 || d == 1
    ensures d == 0 <==> left & flag == right & flag
    ensures d == -1 ==> IsSet(left, flag)
    ensures d == 1 ==> IsSet(right, flag) && !IsSet(left, flag)
  {
    if left & flag == right & flag then 0
    else if left & flag != 0 then -1
    else 1
  }

  /** The documented meaning, stated with "set" read as "some bit of the flag is set". */
  function Documented(left: bv32, right: bv32, flag: bv32): int {
    if IsSet(left, flag) == IsSet(right, flag) then 0
    else if IsSet(left, flag) then -1
    else 1
  }

  /** For a one-bit flag `flagDelta` does what its documentation says: 0 when
      the bit is set in both masks or in neither, -1 when only the left mask
      has it, +1 when only the right mask has it. */
  lemma FlagDeltaSingleBit(left: bv32, right: bv32, flag: bv32)
    requires SingleBit(flag)
    ensures FlagDelta(left, right, flag) == Documented(left, right, flag)
  {
  }

  /** For a one-bit flag, swapping the masks negates the answer. */
  lemma FlagDeltaAntisymmetric(left: bv32, right: bv32, flag: bv32)
    requires SingleBit(flag)
    ensures FlagDelta(right, left, flag) == -FlagDelta(left, right, flag)
  {
  }

  /** Only the bits of the flag matter: clearing every other bit of either mask
      leaves the answer unchanged. */
  lemma FlagDeltaOnlyFlagBits(left: bv32, right: bv32, flag: bv32)
    ensures FlagDelta(left & flag, right & flag, flag) == FlagDelta(left, right, flag)
  {
  }

  /** For a one-bit flag the deltas add up along a chain of masks, so the answer
      for `left` against `right` can be obtained through any intermediate mask. */
  lemma FlagDeltaChain(left: bv32, middle: bv32, right: bv32, flag: bv32)
    requires SingleBit(flag)
    ensures FlagDelta(left, right, flag) == FlagDelta(left, middle, flag) + FlagDelta(middle, right, flag)
  {
  }

  /** With a flag of several bits, masks that each hold a different one of its
      bits differ in both directions with the same answer, -1, so the answer
      is not antisymmetric and does not match the documentation. */
  lemma MultiBitFlagAmbiguous()
    ensures FlagDelta(1, 2, 3) == -1 && FlagDelta(2, 1, 3) == -1
    ensures Documented(1, 2, 3) == 0
  {
  }
}

=== FILE: search.dfy ===
/** `GUtil.indexOfEquals`: `Array.prototype.indexOf` with `equals` in place of `===`. */
module Search {
  import opened JsValues
  import opened Equality

  /** The lowest index whose element equals `element`, or -1 when there is none.
      `dialect` chooses between `equals` as written and its corrected reading. */
  method IndexOfEquals(env: Collaborators, dialect: Dialect, items: seq<Value>, element: Value, byValue: bool)
    returns (r: int)
    ensures -1 <= r < |items|
    ensures r == -1 <==> forall j :: 0 <= j < |items| ==> !Compare(env, dialect, items[j], element, byValue)
    ensures r >= 0 ==> Compare(env, dialect, items[r], element, byValue)
    ensures r >= 0 ==> forall j :: 0 <= j < r ==> !Compare(env, dialect, items[j], element, byValue)
  {
    var i := 0;
    while i < |items|
      invariant 0 <= i <= |items|
      invariant forall j :: 0 <= j < i ==> !Compare(env, dialect, items[j], element, byValue)
    {
      if Compare(env, dialect, items[i], element, byValue) {
        return i;
      }
      i := i + 1;
    }
    return -1;
  }

  /** Under the corrected comparison a NaN is found like any other value. */
  method FindNaN(env: Collaborators, items: seq<Value>) returns (r: int)
    ensures r == -1 <==> forall j :: 0 <= j < |items| ==> !EqualsIntended(env, items[j], Number(NaN), false)
    ensures (exists j :: 0 <= j < |items| && items[j] == Number(NaN)) ==> 0 <= r
  {
    r := IndexOfEquals(env, Intended, items, Number(NaN), false);
    if exists j :: 0 <= j < |items| && items[j] == Number(NaN) {
      var j :| 0 <= j < |items| && items[j] == Number(NaN);
      IntendedNaN(env, false);
      assert EqualsIntended(env, items[j], Number(NaN), false);
    }
  }
}

=== FILE: segment.dfy ===
/** `GUtil.uSortSegment`: sort the numbers, then collect the distinct ones
    lying in the closed segment `[a, b]`. */
module Segment {

  predicate Ascending(s: seq<int>) {
    forall i, j :: 0 <= i < j < |s| ==> s[i] <= s[j]
  }

  predicate StrictlyAscending(s: seq<int>) {
    forall i, j :: 0 <= i < j < |s| ==> s[i] < s[j]
  }

  predicate InSegment(a: int, b: int, x: int) {
    a <= x <= b
  }

  lemma AscendingCons(h: int, t: seq<int>)
    requires Ascending(t) && (|t| > 0 ==> h <= t[0])
    ensures Ascending([h] + t)
  {
    forall i, j | 0 <= i < j < |[h] + t| ensures ([h] + t)[i] <= ([h] + t)[j] {
      if i > 0 {
        assert ([h] + t)[i] == t[i - 1] && ([h] + t)[j] == t[j - 1];
      } else if j > 1 {
        assert t[0] <= t[j - 1];
      }
    }
  }

  /** Places `x` into an ascending sequence. */
  function Insert(x: int, s: seq<int>): (r: seq<int>)
    requires Ascending(s)
    ensures Ascending(r)
    ensures multiset(r) == multiset(s) + multiset{x}
    ensures |r| > 0 && (r[0] == x || (|s| > 0 && r[0] == s[0]))
  {
    if |s| == 0 then [x]
    else if x <= s[0] then
      AscendingCons(x, s);
      [x] + s
    else
      assert s == [s[0]] + s[1..];
      var rest := Insert(x, s[1..]);
      AscendingCons(s[0], rest);
      [s[0]] + rest
  }

  /** `nums.sort(function (s, k) { return s - k; })`: numeric ascending order. */
  function Sort(s: seq<int>): (r: seq<int>)
    ensures Ascending(r)
    ensures multiset(r) == multiset(s)
  {
    if |s| == 0 then []
    else
      assert s == [s[0]] + s[1..];
      Insert(s[0], Sort(s[1..]))
  }

  /** `newnums[0] = x`: overwrites the first element, or creates it when the
      array is empty. */
  function SetFirst(s: seq<int>, x: int): (r: seq<int>)
    ensures |r| == if |s| == 0 then 1 else |s|
    ensures r[0] == x && r[1..] == if |s| == 0 then [] else s[1..]
  {
    if |s| == 0 then [x] else s[0 := x]
  }

  lemma LeastOfStrict(q: seq<int>, x: int)
    requires StrictlyAscending(q) && x in q
    ensures q[0] <= x
  {
    var i :| 0 <= i < |q| && q[i] == x;
    if i > 0 {
      assert q[0] < q[i];
    }
  }

  /** Two strictly ascending sequences with the same elements are the same
      sequence: the contract of `USortSegment` fixes its output. */
  lemma {:induction false} StrictlyAscendingUnique(p: seq<int>, q: seq<int>)
    requires StrictlyAscending(p) && StrictlyAscending(q)
    requires forall x :: x in p <==> x in q
    ensures p == q
    decreases |p|
  {
    if |p| > 0 {
      assert p[0] in p;
    }
    if |q| > 0 {
      assert q[0] in q;
    }
    if |p| > 0 && |q| > 0 {
      LeastOfStrict(q, p[0]);
      LeastOfStrict(p, q[0]);
      forall x | x in p[1..] ensures x in q[1..] {
        assert x in q && x != q[0];
      }
      forall x | x in q[1..] ensures x in p[1..] {
        assert x in p && x != p[0];
      }
      StrictlyAscendingUnique(p[1..], q[1..]);
      assert p == [p[0]] + p[1..] && q == [q[0]] + q[1..];
    }
  }

  lemma SameMembers(s: seq<int>, t: seq<int>)
    requires multiset(s) == multiset(t)
    ensures forall x :: x in s <==> x in t
  {
    forall x ensures x in s <==> x in t {
      assert x in s <==> x in multiset(s);
      assert x in t <==> x in multiset(t);
    }
  }

  lemma AppendStrict(p: seq<int>, v: int)
    requires StrictlyAscending(p) && (|p| > 0 ==> p[|p| - 1] < v)
    ensures StrictlyAscending(p + [v])
  {
    forall i, j | 0 <= i < j < |p| + 1 ensures (p + [v])[i] < (p + [v])[j] {
      if j == |p| && i < |p| - 1 {
        assert p[i] < p[|p| - 1];
      }
    }
  }

  /** What the first test writes: the smallest number, when it lies in the segment. */
  function Head(a: int, b: int, s: seq<int>): seq<int> {
    if |s| > 0 && InSegment(a, b, s[0]) then [s[0]] else []
  }

  /** What the loop pushes in its iterations 1 .. i-1: each number that differs
      from its predecessor in the sorted array and lies in the segment. */
  function Pushed(a: int, b: int, s: seq<int>, i: nat): seq<int>
    requires i <= |s|
  {
    if i <= 1 then []
    else Pushed(a, b, s, i - 1) + (if s[i - 1] != s[i - 2] && InSegment(a, b, s[i - 1]) then [s[i - 1]] else [])
  }

  /** Everything written for the first i numbers: the first write, then the pushes. */
  function Emitted(a: int, b: int, s: seq<int>, i: nat): seq<int>
    requires i <= |s|
  {
    Head(a, b, s) + Pushed(a, b, s, i)
  }

  /** Iteration i - 1 of the loop appends at most the number it looks at. */
  lemma EmittedStep(a: int, b: int, s: seq<int>, i: nat)
    requires 2 <= i <= |s|
    ensures Emitted(a, b, s, i) == Emitted(a, b, s, i - 1)
              + (if s[i - 1] != s[i - 2] && InSegment(a, b, s[i - 1]) then [s[i - 1]] else [])
  {
    var x := if s[i - 1] != s[i - 2] && InSegment(a, b, s[i - 1]) then [s[i - 1]] else [];
    assert Head(a, b, s) + (Pushed(a, b, s, i - 1) + x) == (Head(a, b, s) + Pushed(a, b, s, i - 1)) + x;
  }

  /** Only numbers of the prefix that lie in the segment are written. */
  lemma {:induction false} EmittedSound(a: int, b: int, s: seq<int>, i: nat)
    requires 1 <= i <= |s|
    ensures forall x :: x in Emitted(a, b, s, i) ==> x in s[..i] && InSegment(a, b, x)
  {
    if i > 1 {
      EmittedSound(a, b, s, i - 1);
      EmittedStep(a, b, s, i);
      assert s[..i] == s[..i - 1] + [s[i - 1]];
    }
  }

  /** Every number of the prefix that lies in the segment is written: a
      number skipped for equalling its predecessor was written already. */
  lemma {:induction false} EmittedComplete(a: int, b: int, s: seq<int>, i: nat)
    requires 1 <= i <= |s|
    ensures forall j :: 0 <= j < i && InSegment(a, b, s[j]) ==> s[j] in Emitted(a, b, s, i)
  {
    if i > 1 {
      EmittedComplete(a, b, s, i - 1);
      EmittedStep(a, b, s, i);
      if InSegment(a, b, s[i - 1]) && s[i - 1] == s[i - 2] {
        assert s[i - 2] in Emitted(a, b, s, i - 1);
      }
    }
  }

  /** On an ascending array the written numbers ascend strictly. */
  lemma {:induction false} EmittedAscending(a: int, b: int, s: seq<int>, i: nat)
    requires Ascending(s) && 1 <= i <= |s|
    ensures StrictlyAscending(Emitted(a, b, s, i))
  {
    if i > 1 {
      EmittedAscending(a, b, s, i - 1);
      EmittedStep(a, b, s, i);
      var p := Emitted(a, b, s, i - 1);
      if s[i - 1] != s[i - 2] && InSegment(a, b, s[i - 1]) {
        if |p| > 0 {
          EmittedSound(a, b, s, i - 1);
          assert p[|p| - 1] in p;
          assert p[|p| - 1] in s[..i - 1];
          var k :| 0 <= k < i - 1 && s[k] == p[|p| - 1];
          assert s[k] <= s[i - 2] <= s[i - 1];
        }
        AppendStrict(p, s[i - 1]);
      }
    }
  }

  /** The distinct numbers of an ascending array that lie in the segment, in
      the order `uSortSegment` emits them. */
  function Picked(a: int, b: int, s: seq<int>): seq<int> {
    if |s| == 0 then [] else Emitted(a, b, s, |s|)
  }

  lemma PickedSpec(a: int, b: int, nums: seq<int>, s: seq<int>)
    requires Ascending(s) && multiset(s) == multiset(nums)
    ensures StrictlyAscending(Picked(a, b, s))
    ensures forall x :: x in Picked(a, b, s) <==> x in nums && InSegment(a, b, x)
    ensures |s| > 0 && InSegment(a, b, s[0]) ==> |Picked(a, b, s)| > 0 && Picked(a, b, s)[0] == s[0]
  {
    SameMembers(nums, s);
    if |s| > 0 {
      EmittedSound(a, b, s, |s|);
      EmittedComplete(a, b, s, |s|);
      EmittedAscending(a, b, s, |s|);
      assert s[..|s|] == s;
      forall x | x in nums && InSegment(a, b, x) ensures x in Picked(a, b, s) {
        var j :| 0 <= j < |s| && s[j] == x;
      }
    }
  }

  /** How the first write and the pushes make up `Picked`. */
  lemma PickedShape(a: int, b: int, s: seq<int>)
    requires |s| > 0
    ensures InSegment(a, b, s[0]) ==> Picked(a, b, s) == [s[0]] + Pushed(a, b, s, |s|)
    ensures InSegment(a, b, s[0]) ==> Picked(a, b, s)[1..] == Pushed(a, b, s, |s|)
    ensures !InSegment(a, b, s[0]) ==> Picked(a, b, s) == Pushed(a, b, s, |s|)
    ensures |s| == 1 ==> Picked(a, b, s) == Head(a, b, s)
  {
  }

  lemma SortKeepsLength(s: seq<int>)
    ensures |Sort(s)| == |s|
  {
    assert |multiset(Sort(s))| == |multiset(s)|;
  }

  /** On a sorted array the pushes are the in-segment values above the smallest
      number, each once and in ascending order. */
  lemma PushedSpec(a: int, b: int, s: seq<int>)
    requires Ascending(s) && |s| > 0
    ensures StrictlyAscending(Pushed(a, b, s, |s|))
    ensures forall x :: x in Pushed(a, b, s, |s|) <==> x in s[1..] && InSegment(a, b, x) && x != s[0]
  {
    var e, p := Emitted(a, b, s, |s|), Pushed(a, b, s, |s|);
    EmittedSound(a, b, s, |s|);
    EmittedComplete(a, b, s, |s|);
    EmittedAscending(a, b, s, |s|);
    assert s[..|s|] == s;
    var h := Head(a, b, s);
    assert e == h + p;
    assert StrictlyAscending(p) by {
      forall i, j | 0 <= i < j < |p| ensures p[i] < p[j] {
        assert e[|h| + i] == p[i] && e[|h| + j] == p[j];
      }
    }
    forall x | x in p ensures x in s[1..] && InSegment(a, b, x) && x != s[0] {
      var i :| 0 <= i < |p| && p[i] == x;
      assert e[|h| + i] == x;
      assert x in e;
      if |h| > 0 {
        assert e[0] == s[0] && e[0] < e[|h| + i];
      } else {
        assert !InSegment(a, b, s[0]);
      }
      var k :| 0 <= k < |s| && s[k] == x;
      assert k > 0 && s[1..][k - 1] == x;
    }
    forall x | x in s[1..] && InSegment(a, b, x) && x != s[0] ensures x in p {
      var k :| 0 <= k < |s| - 1 && s[1..][k] == x;
      assert s[k + 1] == x;
      assert x in e;
      assert x !in h;
    }
  }

  /** The `for` loop of `uSortSegment` over an array of at least one number.
      It appends to `out0`; on a sorted array the appended numbers are the
      distinct values in the segment other than the smallest number, strictly
      ascending, and `pushed` counts them. The last clause names the pushes
      through the reference `Pushed`, which `USortSegment` builds on. */
  method PushDistinct(a: int, b: int, s: seq<int>, out0: seq<int>) returns (out: seq<int>, pushed: nat)
    requires |s| > 0
    ensures |out| == |out0| + pushed && out[..|out0|] == out0
    ensures Ascending(s) ==> StrictlyAscending(out[|out0|..])
    ensures Ascending(s) ==>
              forall x :: x in out[|out0|..] <==> x in s[1..] && InSegment(a, b, x) && x != s[0]
    ensures out == out0 + Pushed(a, b, s, |s|)
  {
    out, pushed := out0, 0;
    var i := 1;
    while i < |s|
      invariant 1 <= i <= |s|
      invariant out == out0 + Pushed(a, b, s, i)
      invariant pushed == |Pushed(a, b, s, i)|
    {
      if s[i] != s[i - 1] && InSegment(a, b, s[i]) {
        out := out + [s[i]];
        pushed := pushed + 1;
      }
      i := i + 1;
    }
    assert out[..|out0|] == out0 && out[|out0|..] == Pushed(a, b, s, |s|);
    if Ascending(s) {
      PushedSpec(a, b, s);
    }
  }

  /** `uSortSegment(a, b, nums, newnums)`. Returns the count, `nums` after the
      in-place sort, and `newnums` after the writes; `picked` names the distinct
      values of `nums` in `[a, b]`, in ascending order. When the smallest number
      lies in the segment it is written over `newnums[0]`, and every later value
      is pushed. */
  method USortSegment(a: int, b: int, nums: seq<int>, newnums: seq<int>)
    returns (count: nat, sorted: seq<int>, out: seq<int>, ghost picked: seq<int>)
    ensures Ascending(sorted) && multiset(sorted) == multiset(nums)
    ensures StrictlyAscending(picked)
    ensures forall x :: x in picked <==> x in nums && InSegment(a, b, x)
    ensures count == |picked|
    ensures |nums| > 0 && InSegment(a, b, sorted[0]) ==> |picked| > 0 && picked[0] == sorted[0]
    ensures out == if |nums| > 0 && InSegment(a, b, sorted[0])
                   then SetFirst(newnums, sorted[0]) + picked[1..]
                   else newnums + picked
  {
    sorted := Sort(nums);
    SortKeepsLength(nums);
    count := 0;
    out := newnums;
    // `nums[0]` of an empty array is undefined, and undefined lies in no segment.
    if |sorted| > 0 {
      var first := InSegment(a, b, sorted[0]);
      if first {
        out := SetFirst(out, sorted[0]);
        count := 1;
      }
      // A single number that was written returns at once.
      if !(first && |sorted| == 1) {
        var pushed;
        out, pushed := PushDistinct(a, b, sorted, out);
        count := count + pushed;
      }
      PickedShape(a, b, sorted);
    }
    picked := Picked(a, b, sorted);
    PickedSpec(a, b, nums, sorted);
  }
}

=== FILE: strings.dfy ===
/** The string helpers of GUtil: `replaceAll` (built on `String.prototype.indexOf`
    and `String.prototype.replace` with a string pattern) and `escape` (five
    global single-character replacements). */
module Strings {

  datatype Option<T> = None | Some(value: T)

  /** `p` occurs in `s` starting at position `i`. */
  predicate OccursAt(s: string, p: string, i: int) {
    0 <= i && i + |p| <= |s| && s[i..i + |p|] == p
  }

  /** `s.indexOf(p)`: the first position at which `p` occurs, or -1 when it
      occurs nowhere. The empty string occurs at position 0. */
  function IndexOf(s: string, p: string): (r: int)
    ensures r == -1 || 0 <= r <= |s| - |p|
    decreases |s|
  {
    if |p| > |s| then -1
    else if s[..|p|] == p then 0
    else
      var r := IndexOf(s[1..], p);
      if r < 0 then -1 else r + 1
  }

  lemma SliceOfTail(s: string, j: int, n: nat)
    requires 1 <= j && j + n <= |s|
    ensures s[j..j + n] == s[1..][j - 1..j - 1 + n]
  {
    var x, y := s[j..j + n], s[1..][j - 1..j - 1 + n];
    forall i | 0 <= i < n ensures x[i] == y[i] {
      assert x[i] == s[j + i];
    }
  }

  /** `indexOf` finds the first occurrence, and answers -1 exactly when there is none. */
  lemma {:induction false} IndexOfSpec(s: string, p: string)
    ensures IndexOf(s, p) >= 0 ==> OccursAt(s, p, IndexOf(s, p))
    ensures IndexOf(s, p) >= 0 ==> forall j :: 0 <= j < IndexOf(s, p) ==> !OccursAt(s, p, j)
    ensures IndexOf(s, p) == -1 <==> forall j :: !OccursAt(s, p, j)
    decreases |s|
  {
    if |p| <= |s| {
      if s[..|p|] == p {
        assert OccursAt(s, p, 0);
      } else {
        IndexOfSpec(s[1..], p);
        assert !OccursAt(s, p, 0);
        forall j | 1 <= j ensures OccursAt(s, p, j) == OccursAt(s[1..], p, j - 1) {
          if j + |p| <= |s| {
            SliceOfTail(s, j, |p|);
          }
        }
      }
    }
  }

  /** An occurrence at `j` bounds the answer of `indexOf` by `j`. */
  lemma IndexOfFinds(s: string, p: string, j: int)
    requires OccursAt(s, p, j)
    ensures 0 <= IndexOf(s, p) <= j
  {
    IndexOfSpec(s, p);
  }

  /** `s.replace(p, w)` with a string pattern: the first occurrence of `p` is
      replaced by `w`; without an occurrence `s` is returned unchanged. */
  function ReplaceFirst(s: string, p: string, w: string): string {
    var i := IndexOf(s, p);
    if i < 0 then s else s[..i] + w + s[i + |p|..]
  }

  /** After `replace`, the replacement stands where the first occurrence stood,
      and the rest of the string is kept. */
  lemma ReplaceFirstSpec(s: string, p: string, w: string)
    ensures IndexOf(s, p) == -1 ==> ReplaceFirst(s, p, w) == s
    ensures IndexOf(s, p) >= 0 ==>
              var i := IndexOf(s, p);
              var r := ReplaceFirst(s, p, w);
              && |r| == |s| - |p| + |w|
              && r[..i] == s[..i]
              && OccursAt(r, w, i)
              && r[i + |w|..] == s[i + |p|..]
  {
    var i := IndexOf(s, p);
    if i >= 0 {
      var r := ReplaceFirst(s, p, w);
      assert r[i..i + |w|] == w;
    }
  }

  /** `replaceAll(string, what_, with_)`: keeps replacing the first occurrence
      while one remains. The loop need not end, so the model runs at most
      `fuel` replacements and answers `None` when they do not suffice. */
  function ReplaceAll(s: string, what: string, with: string, fuel: nat): (r: Option<string>)
    decreases fuel
  {
    if IndexOf(s, what) < 0 then Some(s)
    else if fuel == 0 then None
    else ReplaceAll(ReplaceFirst(s, what, with), what, with, fuel - 1)
  }

  /** When `replaceAll` returns, the pattern occurs nowhere in its result. */
  lemma {:induction false} ReplaceAllLeavesNone(s: string, what: string, with: string, fuel: nat)
    requires ReplaceAll(s, what, with, fuel).Some?
    ensures forall j :: !OccursAt(ReplaceAll(s, what, with, fuel).value, what, j)
    decreases fuel
  {
    if IndexOf(s, what) < 0 {
      IndexOfSpec(s, what);
    } else {
      ReplaceAllLeavesNone(ReplaceFirst(s, what, with), what, with, fuel - 1);
    }
  }

  /** Without an occurrence, `replaceAll` returns its input unchanged. */
  lemma ReplaceAllAbsent(s: string, what: string, with: string, fuel: nat)
    requires forall j :: !OccursAt(s, what, j)
    ensures ReplaceAll(s, what, with, fuel) == Some(s)
  {
    IndexOfSpec(s, what);
  }

  /** The empty pattern occurs everywhere: `replaceAll` never returns. */
  lemma {:induction false} ReplaceAllEmptyPattern(s: string, with: string, fuel: nat)
    ensures ReplaceAll(s, "", with, fuel) == None
    decreases fuel
  {
    assert OccursAt(s, "", 0);
    IndexOfSpec(s, "");
    if fuel > 0 {
      ReplaceAllEmptyPattern(ReplaceFirst(s, "", with), with, fuel - 1);
    }
  }

  lemma OccursInMiddle(x: string, y: string, z: string, p: string, k: int)
    requires OccursAt(y, p, k)
    ensures OccursAt(x + y + z, p, |x| + k)
  {
    assert (x + y + z)[|x| + k..|x| + k + |p|] == y[k..k + |p|];
  }

  /** A replacement that contains the pattern leaves an occurrence behind. */
  lemma ReplaceFirstKeeps(s: string, what: string, with: string, k: int)
    requires IndexOf(s, what) >= 0 && OccursAt(with, what, k)
    ensures IndexOf(ReplaceFirst(s, what, with), what) >= 0
  {
    var first := IndexOf(s, what);
    var r := ReplaceFirst(s, what, with);
    assert r == s[..first] + with + s[first + |what|..];
    OccursInMiddle(s[..first], with, s[first + |what|..], what, k);
    IndexOfFinds(r, what, first + k);
  }

  /** When the replacement itself contains the pattern, every replacement
      re-creates an occurrence: once the loop starts, `replaceAll` never returns. */
  lemma {:induction false} ReplaceAllSelfFeeding(s: string, what: string, with: string, fuel: nat, k: int)
    requires IndexOf(s, what) >= 0
    requires OccursAt(with, what, k)
    ensures ReplaceAll(s, what, with, fuel) == None
    decreases fuel
  {
    if fuel > 0 {
      ReplaceFirstKeeps(s, what, with, k);
      ReplaceAllSelfFeeding(ReplaceFirst(s, what, with), what, with, fuel - 1, k);
    }
  }

  lemma ReplaceFirstShrinks(s: string, what: string, with: string)
    requires IndexOf(s, what) >= 0 && |with| < |what|
    ensures |ReplaceFirst(s, what, with)| < |s|
  {
  }

  /** A replacement shorter than the pattern shortens the string each time, so
      `|s|` replacements always suffice. */
  lemma {:induction false} ReplaceAllShrinking(s: string, what: string, with: string, fuel: nat)
    requires |with| < |what|
    requires fuel >= |s|
    ensures ReplaceAll(s, what, with, fuel).Some?
    decreases fuel
  {
    if IndexOf(s, what) >= 0 {
      ReplaceFirstShrinks(s, what, with);
      ReplaceAllShrinking(ReplaceFirst(s, what, with), what, with, fuel - 1);
    }
  }

  /** The answer does not depend on the fuel, once there is enough of it. */
  lemma {:induction false} ReplaceAllFuel(s: string, what: string, with: string, fuel: nat, more: nat)
    requires fuel <= more
    requires ReplaceAll(s, what, with, fuel).Some?
    ensures ReplaceAll(s, what, with, more) == ReplaceAll(s, what, with, fuel)
    decreases fuel
  {
    if IndexOf(s, what) >= 0 {
      ReplaceAllFuel(ReplaceFirst(s, what, with), what, with, fuel - 1, more - 1);
    }
  }

  // ---------------------------------------------------------------------------
  // escape

  /** `s.replace(/c/g, rep)`: every occurrence of the character `c` replaced. */
  function ReplaceChar(s: string, c: char, rep: string): string {
    if |s| == 0 then ""
    else (if s[0] == c then rep else [s[0]]) + ReplaceChar(s[1..], c, rep)
  }

  /** A character absent from the input and from the replacement stays absent. */
  lemma {:induction false} ReplaceCharKeepsAbsent(s: string, c: char, rep: string, d: char)
    requires d !in s && d !in rep
    ensures d !in ReplaceChar(s, c, rep)
    decreases |s|
  {
    if |s| > 0 {
      ReplaceCharKeepsAbsent(s[1..], c, rep, d);
    }
  }

  /** After the global replacement no `c` is left, unless the replacement brings one. */
  lemma {:induction false} ReplaceCharRemoves(s: string, c: char, rep: string)
    requires c !in rep
    ensures c !in ReplaceChar(s, c, rep)
    decreases |s|
  {
    if |s| > 0 {
      ReplaceCharRemoves(s[1..], c, rep);
    }
  }

  /** `escape(html)`: the five replacements in the order the source applies them. */
  function Escape(html: string): string {
    ReplaceChar(ReplaceChar(ReplaceChar(ReplaceChar(ReplaceChar(
      html, '&', "&amp;"), '<', "&lt;"), '>', "&gt;"), '"', "&quot;"), '\'', "&#039;")
  }

  /** Escaped text holds none of the characters `<`, `>`, `"` and `'`. */
  lemma EscapeRemovesMarkup(html: string)
    ensures '<' !in Escape(html) && '>' !in Escape(html) && '"' !in Escape(html) && '\'' !in Escape(html)
  {
    var s1 := ReplaceChar(html, '&', "&amp;");
    var s2 := ReplaceChar(s1, '<', "&lt;");
    ReplaceCharRemoves(s1, '<', "&lt;");
    var s3 := ReplaceChar(s2, '>', "&gt;");
    ReplaceCharRemoves(s2, '>', "&gt;");
    ReplaceCharKeepsAbsent(s2, '>', "&gt;", '<');
    var s4 := ReplaceChar(s3, '"', "&quot;");
    ReplaceCharRemoves(s3, '"', "&quot;");
    ReplaceCharKeepsAbsent(s3, '"', "&quot;", '<');
    ReplaceCharKeepsAbsent(s3, '"', "&quot;", '>');
    ReplaceCharRemoves(s4, '\'', "&#039;");
    ReplaceCharKeepsAbsent(s4, '\'', "&#039;", '<');
    ReplaceCharKeepsAbsent(s4, '\'', "&#039;", '>');
    ReplaceCharKeepsAbsent(s4, '\'', "&#039;", '"');
  }

  /** The HTML entity standing for one character. */
  function EscapeChar(c: char): string {
    match c
    case '&' => "&amp;"
    case '<' => "&lt;"
    case '>' => "&gt;"
    case '"' => "&quot;"
    case '\'' => "&#039;"
    case _ => [c]
  }

  /** Escaping character by character, in a single pass. */
  function EscapeEach(s: string): string {
    if |s| == 0 then "" else EscapeChar(s[0]) + EscapeEach(s[1..])
  }

  lemma {:induction false} ReplaceCharConcat(x: string, y: string, c: char, rep: string)
    ensures ReplaceChar(x + y, c, rep) == ReplaceChar(x, c, rep) + ReplaceChar(y, c, rep)
    decreases |x|
  {
    if |x| > 0 {
      assert (x + y)[1..] == x[1..] + y;
      ReplaceCharConcat(x[1..], y, c, rep);
    } else {
      assert x + y == y;
    }
  }

  lemma {:induction false} ReplaceCharAbsent(s: string, c: char, rep: string)
    requires c !in s
    ensures ReplaceChar(s, c, rep) == s
    decreases |s|
  {
    if |s| > 0 {
      ReplaceCharAbsent(s[1..], c, rep);
      assert s == [s[0]] + s[1..];
    }
  }

  lemma ReplaceCharOne(x: char, c: char, rep: string)
    ensures ReplaceChar([x], c, rep) == if x == c then rep else [x]
  {
    assert [x][1..] == "";
  }

  /** No entity holds a character that a later replacement rewrites. */
  lemma EntitiesInert()
    ensures '<' !in "&amp;" && '>' !in "&amp;" && '"' !in "&amp;" && '\'' !in "&amp;"
    ensures '>' !in "&lt;" && '"' !in "&lt;" && '\'' !in "&lt;"
    ensures '"' !in "&gt;" && '\'' !in "&gt;"
    ensures '\'' !in "&quot;"
  {
  }

  /** Each entity passes unchanged through the replacements after the one that inserted it.
      These five lemmas state `Escape("&") == "&amp;"` and its siblings; the
      character is a parameter fixed by the precondition so that the verifier
      does not expand the five replacements over a literal string all at once. */
  lemma EscapeAmpersand(c: char)
    requires c == '&'
    ensures Escape([c]) == "&amp;"
  {
    EntitiesInert();
    var s1 := ReplaceChar([c], '&', "&amp;");
    assert s1 == "&amp;" by { ReplaceCharOne('&', '&', "&amp;"); }
    var s2 := ReplaceChar(s1, '<', "&lt;");
    assert s2 == "&amp;" by { ReplaceCharAbsent("&amp;", '<', "&lt;"); }
    var s3 := ReplaceChar(s2, '>', "&gt;");
    assert s3 == "&amp;" by { ReplaceCharAbsent("&amp;", '>', "&gt;"); }
    var s4 := ReplaceChar(s3, '"', "&quot;");
    assert s4 == "&amp;" by { ReplaceCharAbsent("&amp;", '"', "&quot;"); }
    var s5 := ReplaceChar(s4, '\'', "&#039;");
    assert s5 == "&amp;" by { ReplaceCharAbsent("&amp;", '\'', "&#039;"); }
  }

  lemma EscapeLess(c: char)
    requires c == '<'
    ensures Escape([c]) == "&lt;"
  {
    EntitiesInert();
    var s1 := ReplaceChar([c], '&', "&amp;");
    assert s1 == "<" by { ReplaceCharOne('<', '&', "&amp;"); }
    var s2 := ReplaceChar(s1, '<', "&lt;");
    assert s2 == "&lt;" by { ReplaceCharOne('<', '<', "&lt;"); }
    var s3 := ReplaceChar(s2, '>', "&gt;");
    assert s3 == "&lt;" by { ReplaceCharAbsent("&lt;", '>', "&gt;"); }
    var s4 := ReplaceChar(s3, '"', "&quot;");
    assert s4 == "&lt;" by { ReplaceCharAbsent("&lt;", '"', "&quot;"); }
    var s5 := ReplaceChar(s4, '\'', "&#039;");
    assert s5 == "&lt;" by { ReplaceCharAbsent("&lt;", '\'', "&#039;"); }
  }

  lemma EscapeGreater(c: char)
    requires c == '>'
    ensures Escape([c]) == "&gt;"
  {
    EntitiesInert();
    var s1 := ReplaceChar([c], '&', "&amp;");
    assert s1 == ">" by { ReplaceCharOne('>', '&', "&amp;"); }
    var s2 := ReplaceChar(s1, '<', "&lt;");
    assert s2 == ">" by { ReplaceCharOne('>', '<', "&lt;"); }
    var s3 := ReplaceChar(s2, '>', "&gt;");
    assert s3 == "&gt;" by { ReplaceCharOne('>', '>', "&gt;"); }
    var s4 := ReplaceChar(s3, '"', "&quot;");
    assert s4 == "&gt;" by { ReplaceCharAbsent("&gt;", '"', "&quot;"); }
    var s5 := ReplaceChar(s4, '\'', "&#039;");
    assert s5 == "&gt;" by { ReplaceCharAbsent("&gt;", '\'', "&#039;"); }
  }

  lemma EscapeQuote(c: char)
    requires c == '"'
    ensures Escape([c]) == "&quot;"
  {
    EntitiesInert();
    var s1 := ReplaceChar([c], '&', "&amp;");
    assert s1 == "\"" by { ReplaceCharOne('"', '&', "&amp;"); }
    var s2 := ReplaceChar(s1, '<', "&lt;");
    assert s2 == "\"" by { ReplaceCharOne('"', '<', "&lt;"); }
    var s3 := ReplaceChar(s2, '>', "&gt;");
    assert s3 == "\"" by { ReplaceCharOne('"', '>', "&gt;"); }
    var s4 := ReplaceChar(s3, '"', "&quot;");
    assert s4 == "&quot;" by { ReplaceCharOne('"', '"', "&quot;"); }
    var s5 := ReplaceChar(s4, '\'', "&#039;");
    assert s5 == "&quot;" by { ReplaceCharAbsent("&quot;", '\'', "&#039;"); }
  }

  lemma EscapeApostrophe(c: char)
    requires c == '\''
    ensures Escape([c]) == "&#039;"
  {
    var s1 := ReplaceChar([c], '&', "&amp;");
    assert s1 == "'" by { ReplaceCharOne('\'', '&', "&amp;"); }
    var s2 := ReplaceChar(s1, '<', "&lt;");
    assert s2 == "'" by { ReplaceCharOne('\'', '<', "&lt;"); }
    var s3 := ReplaceChar(s2, '>', "&gt;");
    assert s3 == "'" by { ReplaceCharOne('\'', '>', "&gt;"); }
    var s4 := ReplaceChar(s3, '"', "&quot;");
    assert s4 == "'" by { ReplaceCharOne('\'', '"', "&quot;"); }
    var s5 := ReplaceChar(s4, '\'', "&#039;");
    assert s5 == "&#039;" by { ReplaceCharOne('\'', '\'', "&#039;"); }
  }

  /** On one character the five replacements produce its entity: no later
      replacement touches what an earlier one inserted. */
  lemma EscapeOneChar(c: char)
    ensures Escape([c]) == EscapeChar(c)
  {
    match c
    case '&' => EscapeAmpersand(c);
    case '<' => EscapeLess(c);
    case '>' => EscapeGreater(c);
    case '"' => EscapeQuote(c);
    case '\'' => EscapeApostrophe(c);
    case _ =>
      ReplaceCharOne(c, '&', "&amp;");
      ReplaceCharOne(c, '<', "&lt;");
      ReplaceCharOne(c, '>', "&gt;");
      ReplaceCharOne(c, '"', "&quot;");
      ReplaceCharOne(c, '\'', "&#039;");
  }

  lemma EscapeConcat(x: string, y: string)
    ensures Escape(x + y) == Escape(x) + Escape(y)
  {
    var s := x + y;
    ReplaceCharConcat(x, y, '&', "&amp;");
    var x1, y1 := ReplaceChar(x, '&', "&amp;"), ReplaceChar(y, '&', "&amp;");
    ReplaceCharConcat(x1, y1, '<', "&lt;");
    var x2, y2 := ReplaceChar(x1, '<', "&lt;"), ReplaceChar(y1, '<', "&lt;");
    ReplaceCharConcat(x2, y2, '>', "&gt;");
    var x3, y3 := ReplaceChar(x2, '>', "&gt;"), ReplaceChar(y2, '>', "&gt;");
    ReplaceCharConcat(x3, y3, '"', "&quot;");
    var x4, y4 := ReplaceChar(x3, '"', "&quot;"), ReplaceChar(y3, '"', "&quot;");
    ReplaceCharConcat(x4, y4, '\'', "&#039;");
  }

  /** The five sequential global replacements amount to escaping every
      character independently. */
  lemma {:induction false} EscapeIsSinglePass(s: string)
    ensures Escape(s) == EscapeEach(s)
    decreases |s|
  {
    if |s| > 0 {
      assert s == [s[0]] + s[1..];
      EscapeConcat([s[0]], s[1..]);
      EscapeOneChar(s[0]);
      EscapeIsSinglePass(s[1..]);
    }
  }

  /** Text without any of the five special characters is left as it is. */
  lemma EscapePlainText(s: string)
    requires forall c :: c in s ==> c !in "&<>\"'"
    ensures Escape(s) == s
  {
    ReplaceCharAbsent(s, '&', "&amp;");
    ReplaceCharAbsent(s, '<', "&lt;");
    ReplaceCharAbsent(s, '>', "&gt;");
    ReplaceCharAbsent(s, '"', "&quot;");
    ReplaceCharAbsent(s, '\'', "&#039;");
  }
}

=== FILE: values.dfy ===
/** JavaScript values as the comparison helpers of GUtil see them.

    Every object-like value (arrays, dates, the three geometry classes, plain
    objects and functions) carries a reference `id`: two such values are `===`
    exactly when they are the same kind of object with the same `id`.
 */
module JsValues {

  /** A JavaScript number: NaN or a finite value (infinities are not modelled). */
  datatype Num = NaN | Fin(r: real)

  datatype Value =
    | Undefined
    | Null
    | Bool(b: bool)
    | Number(n: Num)
    | Str(s: string)
    | Arr(id: nat, elems: seq<Value>)
    /** `time` is the instant `+date` evaluates to. */
    | Date(id: nat, time: int)
    /** GRect, GPoint and GTransform instances; their coordinates are opaque to this model. */
    | Rect(id: nat, coords: seq<real>)
    | Point(id: nat, coords: seq<real>)
    | Transform(id: nat, coords: seq<real>)
    /** A plain object: its own enumerable keys in enumeration order, and the value under each.
        `Object.keys` yields distinct keys, one per value; the type does not
        insist on it, and `Lookup` takes the first matching key and answers
        undefined past the shorter of the two sequences, so every object is
        well defined. */
    | Obj(id: nat, keys: seq<string>, vals: seq<Value>)
    | Func(id: nat)

  /** The constructor of a value, one tag per runtime kind. */
  datatype Kind =
    | KUndefined | KNull | KBool | KNumber | KString | KArray
    | KDate | KRect | KPoint | KTransform | KObject | KFunction

  /** The results of the `typeof` operator. */
  datatype JsType = TUndefined | TObject | TBoolean | TNumber | TString | TFunction

  function KindOf(v: Value): Kind {
    match v
    case Undefined => KUndefined
    case Null => KNull
    case Bool(_) => KBool
    case Number(_) => KNumber
    case Str(_) => KString
    case Arr(_, _) => KArray
    case Date(_, _) => KDate
    case Rect(_, _) => KRect
    case Point(_, _) => KPoint
    case Transform(_, _) => KTransform
    case Obj(_, _, _) => KObject
    case Func(_) => KFunction
  }

  /** `typeof v`: null, arrays, dates, geometry and plain objects all report "object". */
  function TypeOf(v: Value): JsType {
    match v
    case Undefined => TUndefined
    case Bool(_) => TBoolean
    case Number(_) => TNumber
    case Str(_) => TString
    case Func(_) => TFunction
    case _ => TObject
  }

  /** JavaScript truthiness: undefined, null, false, 0, NaN and "" are falsy. */
  predicate Truthy(v: Value) {
    match v
    case Undefined => false
    case Null => false
    case Bool(b) => b
    case Number(n) => n.Fin? && n.r != 0.0
    case Str(s) => s != ""
    case _ => true
  }

  predicate IsObject(v: Value) {
    v.Arr? || v.Date? || v.Rect? || v.Point? || v.Transform? || v.Obj? || v.Func?
  }

  predicate IsNaN(v: Value) {
    v.Number? && v.n.NaN?
  }

  /** JavaScript `===`: NaN is not identical to itself and objects compare by reference. */
  predicate StrictEq(l: Value, r: Value) {
    if IsObject(l) then IsObject(r) && KindOf(l) == KindOf(r) && l.id == r.id
    else l == r && !IsNaN(l)
  }

  /** The own property `key` of a plain object, or undefined when it has none. */
  function Lookup(keys: seq<string>, vals: seq<Value>, key: string): Value {
    if |keys| == 0 || |vals| == 0 then Undefined
    else if keys[0] == key then vals[0]
    else Lookup(keys[1..], vals[1..], key)
  }

  /** `Object.keys(o)`: a fresh array holding the key strings (its `id` is never consulted). */
  function KeyArray(keys: seq<string>): Value {
    Arr(0, seq(|keys|, i requires 0 <= i < |keys| => Str(keys[i])))
  }

  /** A measure that shrinks on every recursive comparison. A plain object
      weighs more than the array of its keys, which the comparison builds. */
  ghost function Size(v: Value): nat {
    match v
    case Arr(_, elems) => 1 + SizeSeq(elems)
    case Obj(_, keys, vals) => 2 + 2 * |keys| + SizeSeq(vals)
    case _ => 1
  }

  ghost function SizeSeq(vs: seq<Value>): nat {
    if |vs| == 0 then 0 else 1 + Size(vs[0]) + SizeSeq(vs[1..])
  }

  lemma {:induction false} SizeOfStrings(keys: seq<string>)
    ensures SizeSeq(KeyArray(keys).elems) == 2 * |keys|
  {
    if |keys| > 0 {
      SizeOfStrings(keys[1..]);
      assert KeyArray(keys).elems[1..] == KeyArray(keys[1..]).elems;
    }
  }

  /** The key array of an object is smaller than the object itself. */
  lemma KeyArraySmaller(o: Value)
    requires o.Obj?
    ensures Size(KeyArray(o.keys)) < Size(o)
  {
    SizeOfStrings(o.keys);
  }

  lemma {:induction false} LookupInSeq(keys: seq<string>, vals: seq<Value>, key: string)
    ensures Lookup(keys, vals, key) == Undefined || Size(Lookup(keys, vals, key)) < SizeSeq(vals)
  {
    if |keys| > 0 && |vals| > 0 && keys[0] != key {
      LookupInSeq(keys[1..], vals[1..], key);
    }
  }

  /** A property value of an object is smaller than the object itself. */
  lemma LookupSmaller(o: Value, key: string)
    requires o.Obj?
    ensures Size(Lookup(o.keys, o.vals, key)) < Size(o)
  {
    LookupInSeq(o.keys, o.vals, key);
  }

  lemma {:induction false} ElementSmaller(vs: seq<Value>, i: int)
    requires 0 <= i < |vs|
    ensures Size(vs[i]) < SizeSeq(vs)
  {
    if i > 0 {
      ElementSmaller(vs[1..], i - 1);
    }
  }
}
